=== FILE: README.md ===
# Todo task store, modelled in Dafny

This project models the task store of a small command-line todo utility
(`src/todo.py`). The store keeps an ordered collection of tasks in one file.
Each task has an `id`, a `title`, a `description`, a creation timestamp and a
`done` flag. Every command loads the whole collection and works on it in
memory. The whole collection is saved back after every add, and after every
complete that finds the id, even when that task was already done:

- **load** (`load_tasks`): a missing file or one that does not parse reads as
  the empty collection. Otherwise the stored collection is returned as stored.
- **add** (`add_task`): the new id is the largest existing id plus one, or 1
  for an empty store. The new task is appended with `done` false and the
  command reports `Added task <id>: <title>`.
- **complete** (`complete_task`): a left-to-right scan finds the first task
  whose id equals the requested one. That task is marked done, the collection
  is saved, and the command reports `Marked task <id> complete.`. If no task
  has the id, nothing is saved and the command reports
  `No task found with id <id>.`.
- **list** (`list_tasks`): an empty store prints `No tasks found.`. Otherwise
  there is one line per task, in store order, `[✓] id: title - description`
  for a done task and `[ ] id: title - description` for an open one.

The file is the datatype `TaskFile = Absent | Corrupt | Valid(tasks)`.
Saving replaces it with `Valid(tasks)`. Printed output is returned as
strings. The creation timestamp is a parameter. Python's decimal printing of
ids is written out in `Decimal`, together with a parser that reads it back.

Modules:

- `Wrappers` (wrappers.dfy): `Option`.
- `Decimal` (decimal.dfy): integer-to-text as Python prints it, and its parser.
- `Tasks` (tasks.dfy): the `Task` record, the id policy, and the first-match lookup.
- `TaskStore` (store.dfy): load/save, add and complete, both on collections and on the file.
- `Listing` (listing.dfy): the lines `list_tasks` prints, and a reader for them.
- `Session` (session.dfy): one concrete run of add, add, add, complete, list, complete.

The docstring of `complete_task` (src/todo.py:61-62) says ids are compared
by identity (`is`). The code at src/todo.py:66 compares them by value
(`==`), and the model follows the code. Under value equality, ids above 256
match like any other. The expected-failure test for a large id
(tests/test_todo.py:264-290) therefore describes a bug this code does not
have.

Python's `max(..., default=0)` uses the default only for an empty store. A
non-empty store whose ids are all negative (possible only in a hand-edited
file) gets its largest negative id plus one. Ids are therefore `int`, not
`nat`, in the model.

## Model

| member | source | states |
|---|---|---|
| Tasks.MaxId | src/todo.py:37 | the largest id is at least every id in the collection and is the id of some task |
| Tasks.NextId | src/todo.py:37 | the assigned id is greater than every existing id, is 1 for an empty store, and is otherwise one more than an id that is present |
| Tasks.FirstIndexOf | src/todo.py:65-66 | the lookup finds a position exactly when some task has the id, and that position is the first one holding it (value equality) |
| TaskStore.Load | src/todo.py:19-26 | a valid file loads as exactly its stored tasks, and a non-empty load can only come from a valid file holding those tasks (see LoadFallback for the empty case) |
| TaskStore.Save | src/todo.py:29-31 | saving always leaves a valid file, replacing whatever was there (the round trip is SaveThenLoad) |
| TaskStore.LoadFallback | src/todo.py:19-26 | loading gives the empty collection exactly when the file is missing, corrupt or holds no tasks (a valid file's tasks come back as stored: Load) |
| TaskStore.SaveThenLoad | src/todo.py:29-31 | a saved collection is loaded back unchanged |
| TaskStore.Add | src/todo.py:34-43 | add grows the collection by one at the end, keeps the earlier tasks unchanged, and the new task has a fresh id greater than all others, the given title, description and timestamp, and is not done |
| TaskStore.AddTask | src/todo.py:34-45 | adding to a file always leaves a valid file holding the loaded collection plus the new task, and reports `Added task <id>: <title>` with the assigned id |
| TaskStore.AddKeepsIdsUnique | src/todo.py:37 | a collection with pairwise distinct ids keeps them distinct after an add |
| TaskStore.SequentialIds | src/todo.py:37-43 | starting from an empty store, n adds give ids 1 to n in insertion order, each task holding its own entry's text and not done |
| TaskStore.FirstAddMessage | src/todo.py:37-45 | the first add on an empty store is reported as `Added task 1: <title>` |
| TaskStore.AddOverwritesCorrupt | src/todo.py:19-26 | adding to a corrupt file replaces it with a one-task collection with id 1, so its old contents are lost |
| TaskStore.Complete | src/todo.py:64-67 | complete misses exactly when no task has the id; on a hit the length is unchanged, the first matching task gets done = true with every other field kept, and every other task is unchanged |
| TaskStore.CompleteKeepsIds | src/todo.py:66-67 | completing keeps each position's id, so unique ids stay unique |
| TaskStore.CompleteIdempotent | src/todo.py:64-69 | completing an id twice gives the same collection as completing it once, and the second call still finds the task |
| TaskStore.CompleteTask | src/todo.py:58-71 | on a miss the file is left exactly as it was (no save) and the report is `No task found with id <id>.`; on a hit the marked collection is saved and the report is `Marked task <id> complete.` |
| TaskStore.CompleteTaskIdempotent | src/todo.py:64-71 | running the complete command twice leaves the same file and prints the same line as running it once, for hits and misses alike |
| TaskStore.CompleteTaskLoop | src/todo.py:64-71 | the source's early-returning scan loop saves and reports exactly what the functional model does |
| Listing.Line | src/todo.py:54-55 | a line starts with `[✓]` exactly when the task is done and with `[ ]` exactly when it is not, followed by a space and `id: title - description` |
| Listing.Render | src/todo.py:48-55 | an empty collection renders as the single line `No tasks found.`; otherwise there is one line per task, in order, whose marker shows that task's done flag and whose rest is its `id: title - description` |
| Listing.ListTasks | src/todo.py:48-55 | listing a file gives `No tasks found.` when the load is empty; otherwise one line per loaded task, in order, each being that task's `[✓]`/`[ ]` marker line with `id: title - description`, from which its done flag and id read back |
| Listing.RenderDistinguishesEmpty | src/todo.py:50-55 | the listing is the `No tasks found.` message exactly when the store is empty |
| Listing.LineReadsBack | src/todo.py:54-55 | the done flag and the id of a task can be read back from its listing line |
| Listing.RenderReadsBack | src/todo.py:53-55 | each line of a non-empty listing gives back the done flag and id of the task at the same position |
| Decimal.NatToString | src/todo.py:45 | a natural number prints as a non-empty string of digits with no leading zero, and 0 prints as `0` |
| Decimal.IntToString | src/todo.py:45 | an id prints as non-empty text that starts with `-` exactly when the id is negative and is otherwise digits, with no leading zero (0 prints as `0`) |
| Decimal.ParseNatToString | src/todo.py:45 | reading printed digits gives back the number |
| Decimal.ParseIntToString | src/todo.py:69-71 | the printed id in a message reads back to that id |
| Decimal.IntToStringInjective | src/todo.py:69-71 | two ids print the same exactly when they are equal, so messages name ids unambiguously |
| Session.ThreeAddsIds | src/todo.py:34-45 | three adds on a missing file give ids 1, 2, 3 in order, none done |
| Session.CompleteThirdReport | src/todo.py:64-69 | completing task 3 after the three adds reports `Marked task 3 complete.` |
| Session.ListAfterComplete | src/todo.py:48-55 | after completing task 3, the listing has three lines and only the third shows the done marker |
| Session.MissAfterComplete | src/todo.py:64-71 | completing 999 afterwards reports `No task found with id 999.` and leaves the file unchanged |

## Left out

- JSON encoding and decoding (`json.load`, `json.dump`, `indent=2`, `ensure_ascii=False`) are library calls. The file is the abstract `TaskFile`, and saving always produces `Valid(tasks)`. The round trip of non-ASCII text is the JSON library's promise, so it is not stated here.
- A file that parses as JSON but is not a list of task records (an object, a number): `load_tasks` returns whatever was parsed. The model only has task collections.
- A file that is not valid UTF-8 makes `load_tasks` raise a decoding error that its `except json.JSONDecodeError` does not catch. The model has no such failure; `Corrupt` stands for text that does not parse.
- A path that exists but cannot be read (a directory, or one without read permission): `open` at src/todo.py:22 sits outside the `try`, so `load_tasks` raises `IsADirectoryError` or `PermissionError`, and so do `add_task`, `list_tasks` and `complete_task`. `TaskFile` has no state for this, and the model's `Load` always returns a collection.
- Save failures: an unwritable path makes `save_tasks` raise, and the exception reaches the caller. The model's `Save` always succeeds.
- Text fields holding a lone surrogate: a Python `str` can hold one, a Dafny `string` cannot. On such a field `json.dump` raises `UnicodeEncodeError` after `open(path, "w")` at src/todo.py:30 has already emptied the file, leaving it truncated. The model's `Save` always writes the whole collection.
- `datetime.utcnow()` (src/todo.py:40) is a clock read. The timestamp is a parameter, stored unchanged; its ISO-8601 `Z` format is not checked.
- `print`: messages and listing lines are returned as strings.
- The `.get` defaults used for malformed records (src/todo.py:37, 54-55): a task is a fixed record with all five fields.
- `DEFAULT_TASKS_FILE`, `build_parser` and `main` (src/todo.py:16, 74-103) are path and argument plumbing. Each modelled operation acts on one `TaskFile` value in place of a path.
- Concurrent access by several processes and partial writes after a crash are not modelled. Every command is one load followed by at most one save.
- Decimal.IntToString: Python 3.11 and later refuse to print an int of more than 4300 digits (`str()` and f-strings raise `ValueError`, src/todo.py:45, 55, 69, 71), and `json.load` raises the same error on such an id, which `except json.JSONDecodeError` (src/todo.py:25) does not catch. The model prints and loads integers of any size.

=== FILE: decimal.dfy ===
/**
 Decimal text of integers, as Python's `str(int)` and f-string interpolation
 produce it: an optional '-' followed by digits without leading zeros.
 The task store prints ids inside its messages and listing lines, so the
 printed form is written out here together with a parser that reads it back.
 */
module Decimal {
  import opened Wrappers

  predicate IsDigit(c: char) {
    '0' <= c <= '9'
  }

  predicate AllDigits(s: string) {
    forall i :: 0 <= i < |s| ==> IsDigit(s[i])
  }

  function DigitChar(d: nat): (c: char)
    requires d < 10
    ensures IsDigit(c)
  {
    (48 + d) as char
  }

  function DigitValue(c: char): (d: nat)
    requires IsDigit(c)
    ensures d < 10
    ensures DigitChar(d) == c
  {
    c as int - 48
  }

  /** Decimal digits of a natural number, most significant first. */
  function NatToString(n: nat): (s: string)
    ensures |s| > 0 && AllDigits(s)
    ensures s[0] == '0' ==> n == 0
    ensures n == 0 ==> s == "0"
    decreases n
  {
    if n < 10 then [DigitChar(n)] else NatToString(n / 10) + [DigitChar(n % 10)]
  }

  /** Value of a string of decimal digits (the empty string reads as 0). */
  function ParseNat(s: string): nat
    requires AllDigits(s)
    decreases |s|
  {
    if |s| == 0 then 0 else ParseNat(s[..|s| - 1]) * 10 + DigitValue(s[|s| - 1])
  }

  /** Decimal text of an integer, with a leading '-' for negative values. */
  function IntToString(n: int): (s: string)
    ensures |s| > 0
    ensures s[0] == '-' <==> n < 0
    ensures forall i :: 0 <= i < |s| ==> IsDigit(s[i]) || (i == 0 && s[i] == '-')
    ensures s[0] == '0' ==> n == 0
    ensures n == 0 ==> s == "0"
    ensures n < 0 ==> |s| > 1 && s[1] != '0'
  {
    if n < 0 then "-" + NatToString(-n) else NatToString(n)
  }

  /** Reads an optional '-' followed by decimal digits; any other text is None. */
  function ParseInt(s: string): Option<int> {
    if |s| > 0 && AllDigits(s) then Some(ParseNat(s))
    else if |s| > 1 && s[0] == '-' && AllDigits(s[1..]) then Some(-(ParseNat(s[1..]) as int))
    else None
  }

  lemma {:induction false} ParseNatToString(n: nat)
    ensures ParseNat(NatToString(n)) == n
    decreases n
  {
    var s := NatToString(n);
    if n >= 10 {
      ParseNatToString(n / 10);
      assert s[..|s| - 1] == NatToString(n / 10);
    }
  }

  /** The printed id can always be read back: printing loses nothing. */
  lemma ParseIntToString(n: int)
    ensures ParseInt(IntToString(n)) == Some(n)
  {
    var s := IntToString(n);
    if n < 0 {
      assert s[1..] == NatToString(-n);
      ParseNatToString(-n);
    } else {
      ParseNatToString(n);
    }
  }

  /** Distinct ids print as distinct text. */
  lemma IntToStringInjective(a: int, b: int)
    ensures IntToString(a) == IntToString(b) <==> a == b
  {
    if IntToString(a) == IntToString(b) {
      ParseIntToString(a);
      ParseIntToString(b);
    }
  }
}

=== FILE: listing.dfy ===
/**
 The listing printed by `list_tasks` (src/todo.py): a fixed message for an
 empty store, otherwise one line per task in store order of the form
 "[✓] id: title - description" for a done task and "[ ] id: title - description"
 for an open one. The printed lines are returned instead of printed.
 */
module Listing {
  import opened Wrappers
  import opened Decimal
  import opened Tasks
  import opened TaskStore

  const EmptyMessage: string := "No tasks found."
  const DoneMark: string := "[\U{2713}]"
  const OpenMark: string := "[ ]"

  /** The part of a line after the status marker and its space. */
  function Details(t: Task): string {
    IntToString(t.id) + ": " + t.title + " - " + t.description
  }

  /** One listing line: the marker tells whether the task is done. */
  function Line(t: Task): (line: string)
    ensures |line| > 4
    ensures line[..3] == DoneMark <==> t.done
    ensures line[..3] == OpenMark <==> !t.done
    ensures line[3] == ' ' && line[4..] == Details(t)
  {
    assert DoneMark[1] != OpenMark[1];
    (if t.done then DoneMark else OpenMark) + " " + Details(t)
  }

  /** The lines `list_tasks` prints for a collection. */
  function Render(tasks: seq<Task>): (lines: seq<string>)
    ensures |tasks| == 0 ==> lines == [EmptyMessage]
    ensures |tasks| > 0 ==> |lines| == |tasks|
    ensures |tasks| > 0 ==> forall i :: 0 <= i < |tasks| ==>
      && |lines[i]| > 4
      && (lines[i][..3] == DoneMark <==> tasks[i].done)
      && (lines[i][..3] == OpenMark <==> !tasks[i].done)
      && lines[i][3] == ' '
      && lines[i][4..] == Details(tasks[i])
  {
    if |tasks| == 0 then [EmptyMessage]
    else seq(|tasks|, i requires 0 <= i < |tasks| => Line(tasks[i]))
  }

  /** The empty-store message cannot be mistaken for a listing. */
  lemma RenderDistinguishesEmpty(tasks: seq<Task>)
    ensures Render(tasks) == [EmptyMessage] <==> |tasks| == 0
  {
    if |tasks| > 0 {
      var lines := Render(tasks);
      assert lines[0][..3] == DoneMark || lines[0][..3] == OpenMark;
      assert lines[0][0] == '[';
      assert EmptyMessage[0] == 'N';
    }
  }

  // ------------------------------------------------- reading lines back

  /** Prefix of `s` before the first `c`, or all of `s` if there is none. */
  function TakeUntil(s: string, c: char): string
    decreases |s|
  {
    if |s| == 0 || s[0] == c then [] else [s[0]] + TakeUntil(s[1..], c)
  }

  /** The done flag a listing line shows, if it has a marker. */
  function LineDone(line: string): Option<bool> {
    if |line| >= 3 && line[..3] == DoneMark then Some(true)
    else if |line| >= 3 && line[..3] == OpenMark then Some(false)
    else None
  }

  /** The id a listing line shows: the text between the marker and the
      first ':'. */
  function LineId(line: string): Option<int> {
    if |line| < 4 then None else ParseInt(TakeUntil(line[4..], ':'))
  }

  lemma {:induction false} TakeUntilPrefix(a: string, b: string, c: char)
    requires forall i :: 0 <= i < |a| ==> a[i] != c
    requires |b| > 0 && b[0] == c
    ensures TakeUntil(a + b, c) == a
    decreases |a|
  {
    if |a| > 0 {
      assert (a + b)[1..] == a[1..] + b;
      TakeUntilPrefix(a[1..], b, c);
    } else {
      assert a + b == b;
    }
  }

  /** A listing line gives back the done flag and the id of its task. */
  lemma LineReadsBack(t: Task)
    ensures LineDone(Line(t)) == Some(t.done)
    ensures LineId(Line(t)) == Some(t.id)
  {
    var line := Line(t);
    var digits := IntToString(t.id);
    var rest := ": " + t.title + " - " + t.description;
    assert line[4..] == digits + rest;
    TakeUntilPrefix(digits, rest, ':');
    ParseIntToString(t.id);
  }

  /** Every line of a non-empty listing gives back the done flag and id of
      the task at the same position. */
  lemma RenderReadsBack(tasks: seq<Task>)
    requires |tasks| > 0
    ensures forall i :: 0 <= i < |tasks| ==>
      LineDone(Render(tasks)[i]) == Some(tasks[i].done) && LineId(Render(tasks)[i]) == Some(tasks[i].id)
  {
    forall i | 0 <= i < |tasks|
      ensures LineDone(Render(tasks)[i]) == Some(tasks[i].done)
      ensures LineId(Render(tasks)[i]) == Some(tasks[i].id)
    {
      LineReadsBack(tasks[i]);
      assert Render(tasks)[i] == Line(tasks[i]);
    }
  }

  /** `list_tasks` against a task file (it never writes the file): the empty
      message for an empty load, otherwise each loaded task's own line, in
      order, from which that task's done flag and id read back. */
  function ListTasks(f: TaskFile): (lines: seq<string>)
    ensures |Load(f)| == 0 ==> lines == [EmptyMessage]
    ensures |Load(f)| > 0 ==> |lines| == |Load(f)|
    ensures |Load(f)| > 0 ==> forall i :: 0 <= i < |lines| ==> lines[i] == Line(Load(f)[i])
    ensures |Load(f)| > 0 ==> forall i :: 0 <= i < |lines| ==>
      LineDone(lines[i]) == Some(Load(f)[i].done) && LineId(lines[i]) == Some(Load(f)[i].id)
  {
    var tasks := Load(f);
    if |tasks| > 0 then RenderReadsBack(tasks); Render(tasks) else Render(tasks)
  }
}

=== FILE: session.dfy ===
/**
 A command session against one task file, start to finish: three adds on a
 missing file, completing the third task, listing, and completing an id
 nobody has (tests/test_todo.py exercises these steps one by one).
 */
module Session {
  import opened Wrappers
  import opened Decimal
  import opened Tasks
  import opened TaskStore
  import opened Listing

  /** The file after the three adds; the timestamps are whatever the clock gave. */
  function ThreeAdds(c1: string, c2: string, c3: string): TaskFile {
    var f1 := AddTask(Absent, "Buy groceries", "Milk, bread, eggs", c1).file;
    var f2 := AddTask(f1, "Fix bug", "", c2).file;
    AddTask(f2, "Write tests", "", c3).file
  }

  /** The entries of the three adds, in order. */
  function ThreeEntries(c1: string, c2: string, c3: string): seq<Entry> {
    [Entry("Buy groceries", "Milk, bread, eggs", c1), Entry("Fix bug", "", c2), Entry("Write tests", "", c3)]
  }

  /** The three add commands build the collection that adding their entries
      one by one builds. */
  lemma ThreeAddsAreAddAll(c1: string, c2: string, c3: string)
    ensures Load(ThreeAdds(c1, c2, c3)) == AddAll([], ThreeEntries(c1, c2, c3))
  {
    var es := ThreeEntries(c1, c2, c3);
    assert es[..2][..1] == es[..1] && es[..1][..0] == [];
    AddAllLast([], es[..1]);
    AddAllLast([], es[..2]);
    AddAllLast([], es);
    var f1 := AddTask(Absent, "Buy groceries", "Milk, bread, eggs", c1).file;
    var f2 := AddTask(f1, "Fix bug", "", c2).file;
    assert Load(f1) == AddAll([], es[..1]);
    assert Load(f2) == AddAll([], es[..2]);
  }

  /** The three adds give ids 1, 2, 3 in order, none done. */
  lemma ThreeAddsIds(c1: string, c2: string, c3: string)
    ensures |Load(ThreeAdds(c1, c2, c3))| == 3
    ensures forall i :: 0 <= i < 3 ==> Load(ThreeAdds(c1, c2, c3))[i].id == i + 1
    ensures forall i :: 0 <= i < 3 ==> !Load(ThreeAdds(c1, c2, c3))[i].done
    ensures Load(ThreeAdds(c1, c2, c3))[0].title == "Buy groceries"
  {
    var es := ThreeEntries(c1, c2, c3);
    ThreeAddsAreAddAll(c1, c2, c3);
    SequentialIds(es);
    var tasks := AddAll([], es);
    forall i | 0 <= i < 3
      ensures tasks[i].id == i + 1 && !tasks[i].done
    {
      assert CreatedFrom(tasks[i], i + 1, es[i]);
    }
    assert CreatedFrom(tasks[0], 1, es[0]);
  }

  /** In a store holding tasks 1, 2 and 3, completing 3 marks the third
      task only. */
  lemma CompleteThird(tasks: seq<Task>)
    requires |tasks| == 3
    requires forall i :: 0 <= i < 3 ==> tasks[i].id == i + 1 && !tasks[i].done
    ensures Complete(tasks, 3).Marked?
    ensures var done := Complete(tasks, 3).tasks;
      |done| == 3 && !done[0].done && !done[1].done && done[2].done && !HasId(done, 999)
  {
    assert IsFirstMatch(tasks, 3, 2);
    CompleteKeepsIds(tasks, 3);
  }

  /** The report texts for the ids this session uses. */
  lemma MarkedThreeText()
    ensures "Marked task " + IntToString(3) + " complete." == "Marked task 3 complete."
  {
    assert IntToString(3) == "3";
  }

  lemma MissingNineNineNineText()
    ensures "No task found with id " + IntToString(999) + "." == "No task found with id 999."
  {
    assert IntToString(999) == "999" by {
      assert NatToString(99) == "99";
    }
  }

  /** Any file holding task 3 reports completing it by that text. */
  lemma HitReport(f: TaskFile)
    requires HasId(Load(f), 3)
    ensures CompleteTask(f, 3).message == "Marked task 3 complete."
  {
    MarkedThreeText();
  }

  /** Any file without task 999 is left alone by completing it, with that
      miss reported. */
  lemma MissReport(g: TaskFile)
    requires !HasId(Load(g), 999)
    ensures CompleteTask(g, 999) == CompleteReport(g, "No task found with id 999.")
  {
    MissingNineNineNineText();
  }

  /** The file after the three adds and completing task 3. */
  function CompletedThird(c1: string, c2: string, c3: string): TaskFile {
    CompleteTask(ThreeAdds(c1, c2, c3), 3).file
  }

  /** Completing task 3 after the three adds finds it, and the saved
      collection has only its third task done and no task 999. */
  lemma CompletedThirdTasks(c1: string, c2: string, c3: string)
    ensures HasId(Load(ThreeAdds(c1, c2, c3)), 3)
    ensures var done := Load(CompletedThird(c1, c2, c3));
      |done| == 3 && !done[0].done && !done[1].done && done[2].done && !HasId(done, 999)
  {
    var tasks := Load(ThreeAdds(c1, c2, c3));
    ThreeAddsIds(c1, c2, c3);
    CompleteThird(tasks);
    assert tasks[2].id == 3;
  }

  /** Completing task 3 after the three adds reports it marked. */
  lemma CompleteThirdReport(c1: string, c2: string, c3: string)
    ensures CompleteTask(ThreeAdds(c1, c2, c3), 3).message == "Marked task 3 complete."
  {
    CompletedThirdTasks(c1, c2, c3);
    HitReport(ThreeAdds(c1, c2, c3));
  }

  /** After completing task 3 only the third listing line shows the done
      marker. */
  lemma ListAfterComplete(c1: string, c2: string, c3: string)
    ensures var lines := ListTasks(CompletedThird(c1, c2, c3));
      |lines| == 3 && LineDone(lines[0]) == Some(false) && LineDone(lines[1]) == Some(false)
      && LineDone(lines[2]) == Some(true)
  {
    CompletedThirdTasks(c1, c2, c3);
  }

  /** Completing 999 afterwards reports the miss and leaves the file alone. */
  lemma MissAfterComplete(c1: string, c2: string, c3: string)
    ensures var g := CompletedThird(c1, c2, c3);
      CompleteTask(g, 999) == CompleteReport(g, "No task found with id 999.")
  {
    CompletedThirdTasks(c1, c2, c3);
    MissReport(CompletedThird(c1, c2, c3));
  }
}

=== FILE: store.dfy ===
/**
 The task store of src/todo.py: every operation loads the whole collection
 from the task file and works on it in memory. The whole collection is saved
 back after every add, and after every complete that finds the id, even when
 that task was already done. The file is modelled by what loading can
 make of it; printing becomes a returned message, and the creation timestamp
 is a parameter.
 */
module TaskStore {
  import opened Wrappers
  import opened Decimal
  import opened Tasks

  /** The task file as `load_tasks` sees it: missing, holding text that does
      not parse, or holding a stored collection. */
  datatype TaskFile = Absent | Corrupt | Valid(tasks: seq<Task>)

  /** `load_tasks`: a missing or unparsable file reads as the empty collection. */
  function Load(f: TaskFile): (tasks: seq<Task>)
    ensures f.Valid? ==> tasks == f.tasks
    ensures |tasks| > 0 ==> f == Valid(tasks)
  {
    match f
    case Valid(tasks) => tasks
    case _ => []
  }

  /** `save_tasks`: the file is replaced by the whole collection. */
  function Save(tasks: seq<Task>): (f: TaskFile)
    ensures f.Valid?
  {
    Valid(tasks)
  }

  /** Loading yields nothing exactly when the file is missing, corrupt or
      holds an empty collection. */
  lemma LoadFallback(f: TaskFile)
    ensures Load(f) == [] <==> f.Absent? || f.Corrupt? || f == Valid([])
  {
  }

  /** Whatever is saved is loaded back unchanged and in the same order. */
  lemma SaveThenLoad(tasks: seq<Task>)
    ensures Load(Save(tasks)) == tasks
  {
  }

  // ---------------------------------------------------------------- add

  /** The collection after `add_task`: one new, not yet done task with a
      fresh id appended after the existing ones. */
  function Add(tasks: seq<Task>, title: string, description: string, createdAt: string): (r: seq<Task>)
    ensures |r| == |tasks| + 1
    ensures r[..|tasks|] == tasks
    ensures r[|tasks|].id == NextId(tasks)
    ensures forall i :: 0 <= i < |tasks| ==> tasks[i].id < r[|tasks|].id
    ensures r[|tasks|].title == title && r[|tasks|].description == description
    ensures r[|tasks|].createdAt == createdAt && !r[|tasks|].done
  {
    tasks + [Task(NextId(tasks), title, description, createdAt, false)]
  }

  datatype AddReport = AddReport(file: TaskFile, message: string)

  /** `add_task` against a task file, reporting the line it prints. */
  function AddTask(f: TaskFile, title: string, description: string, createdAt: string): (r: AddReport)
    ensures r.file.Valid?
    ensures Load(r.file) == Add(Load(f), title, description, createdAt)
    ensures r.message == "Added task " + IntToString(NextId(Load(f))) + ": " + title
  {
    var tasks := Add(Load(f), title, description, createdAt);
    AddReport(Save(tasks), "Added task " + IntToString(tasks[|tasks| - 1].id) + ": " + title)
  }

  /** Adding keeps the ids of a collection pairwise distinct. */
  lemma AddKeepsIdsUnique(tasks: seq<Task>, title: string, description: string, createdAt: string)
    requires UniqueIds(tasks)
    ensures UniqueIds(Add(tasks, title, description, createdAt))
  {
    var r := Add(tasks, title, description, createdAt);
    forall i, j | 0 <= i < j < |r|
      ensures r[i].id != r[j].id
    {
      if j < |tasks| {
        assert r[i] == tasks[i] && r[j] == tasks[j];
      } else {
        assert r[i] == tasks[i];
      }
    }
  }

  /** What one `add` command is given besides the store. */
  datatype Entry = Entry(title: string, description: string, createdAt: string)

  /** The collection after adding `entries` one by one, first entry first. */
  function AddAll(tasks: seq<Task>, entries: seq<Entry>): seq<Task>
    decreases |entries|
  {
    if |entries| == 0 then tasks
    else
      var e := entries[|entries| - 1];
      Add(AddAll(tasks, entries[..|entries| - 1]), e.title, e.description, e.createdAt)
  }

  /** Adding a list of entries ends with adding its last one. */
  lemma AddAllLast(tasks: seq<Task>, entries: seq<Entry>)
    requires |entries| > 0
    ensures var e := entries[|entries| - 1];
      AddAll(tasks, entries) == Add(AddAll(tasks, entries[..|entries| - 1]), e.title, e.description, e.createdAt)
  {
  }

  /** A collection numbered 1, 2, ..., n gets n + 1 as its next id. */
  lemma NextIdAfterSequential(tasks: seq<Task>)
    requires forall i :: 0 <= i < |tasks| ==> tasks[i].id == i + 1
    ensures NextId(tasks) == |tasks| + 1
  {
    if |tasks| > 0 {
      assert tasks[|tasks| - 1].id == |tasks|;
    }
  }

  /** `t` is the task an add of `e` creates when it is given id `id`. */
  predicate CreatedFrom(t: Task, id: int, e: Entry) {
    && t.id == id
    && t.title == e.title
    && t.description == e.description
    && t.createdAt == e.createdAt
    && !t.done
  }

  /** Adding to a collection built from `front` by sequential adds gives the
      collection built from `front` followed by the new entry. */
  lemma AddNumbered(before: seq<Task>, front: seq<Entry>, e: Entry)
    requires |before| == |front|
    requires forall i :: 0 <= i < |front| ==> CreatedFrom(before[i], i + 1, front[i])
    ensures var r := Add(before, e.title, e.description, e.createdAt);
      forall i :: 0 <= i < |r| ==> CreatedFrom(r[i], i + 1, (front + [e])[i])
  {
    var r := Add(before, e.title, e.description, e.createdAt);
    assert forall i :: 0 <= i < |before| ==> before[i].id == i + 1 by {
      forall i | 0 <= i < |before| ensures before[i].id == i + 1 {
        assert CreatedFrom(before[i], i + 1, front[i]);
      }
    }
    NextIdAfterSequential(before);
    forall i | 0 <= i < |r|
      ensures CreatedFrom(r[i], i + 1, (front + [e])[i])
    {
      if i < |before| {
        assert r[i] == before[i];
        assert (front + [e])[i] == front[i];
      }
    }
  }

  /** From an empty store, n adds give ids 1, 2, ..., n in insertion order,
      each task carrying its own entry's text and starting not done. */
  lemma {:induction false} SequentialIds(entries: seq<Entry>)
    ensures |AddAll([], entries)| == |entries|
    ensures forall i :: 0 <= i < |entries| ==> CreatedFrom(AddAll([], entries)[i], i + 1, entries[i])
    decreases |entries|
  {
    if |entries| > 0 {
      var n := |entries| - 1;
      var front := entries[..n];
      assert front + [entries[n]] == entries;
      SequentialIds(front);
      AddAllLast([], entries);
      AddNumbered(AddAll([], front), front, entries[n]);
    }
  }

  /** On an empty store the first add is reported as task 1. */
  lemma FirstAddMessage(f: TaskFile, title: string, description: string, createdAt: string)
    requires Load(f) == []
    ensures AddTask(f, title, description, createdAt).message == "Added task 1: " + title
  {
    assert IntToString(1) == "1";
  }

  /** A corrupt file is not kept: adding replaces it by a one-task
      collection, so whatever it held is lost. */
  lemma AddOverwritesCorrupt(title: string, description: string, createdAt: string)
    ensures AddTask(Corrupt, title, description, createdAt).file
         == Valid([Task(1, title, description, createdAt, false)])
  {
  }

  // ----------------------------------------------------------- complete

  datatype CompleteOutcome = Marked(tasks: seq<Task>) | NotFound

  /** `complete_task` on the loaded collection: the first task carrying `id`
      is marked done and nothing else changes; with no such task nothing is
      marked. Ids are compared by value. */
  function Complete(tasks: seq<Task>, id: int): (r: CompleteOutcome)
    ensures r.NotFound? <==> !HasId(tasks, id)
    ensures r.Marked? ==> |r.tasks| == |tasks|
    ensures r.Marked? ==> forall j :: 0 <= j < |tasks| ==>
      r.tasks[j] == if IsFirstMatch(tasks, id, j) then tasks[j].(done := true) else tasks[j]
  {
    match FirstIndexOf(tasks, id)
    case None => NotFound
    case Some(k) => Marked(tasks[k := tasks[k].(done := true)])
  }

  /** Marking keeps every id where it was, so unique ids stay unique. */
  lemma CompleteKeepsIds(tasks: seq<Task>, id: int)
    requires HasId(tasks, id)
    ensures forall j :: 0 <= j < |tasks| ==> Complete(tasks, id).tasks[j].id == tasks[j].id
    ensures UniqueIds(tasks) ==> UniqueIds(Complete(tasks, id).tasks)
  {
    var r := Complete(tasks, id).tasks;
    forall j | 0 <= j < |tasks|
      ensures r[j].id == tasks[j].id
    {
      if IsFirstMatch(tasks, id, j) {
        assert r[j] == tasks[j].(done := true);
      }
    }
  }

  /** Completing the same id twice leaves the collection as completing it
      once, and the second call still finds the task. */
  lemma CompleteIdempotent(tasks: seq<Task>, id: int)
    requires HasId(tasks, id)
    ensures Complete(tasks, id).Marked?
    ensures Complete(Complete(tasks, id).tasks, id) == Complete(tasks, id)
  {
    var once := Complete(tasks, id).tasks;
    CompleteKeepsIds(tasks, id);
    FirstIndexOfSameIds(tasks, once, id);
    var k := FirstIndexOf(tasks, id).value;
    assert once[k] == tasks[k].(done := true);
    assert once[k := once[k].(done := true)] == once;
  }

  datatype CompleteReport = CompleteReport(file: TaskFile, message: string)

  /** `complete_task` against a task file: on a hit the collection with the
      task marked is saved; on a miss the file is not written at all. */
  function CompleteTask(f: TaskFile, id: int): (r: CompleteReport)
    ensures !HasId(Load(f), id) ==> r.file == f
    ensures !HasId(Load(f), id) ==> r.message == "No task found with id " + IntToString(id) + "."
    ensures HasId(Load(f), id) ==> r.file == Valid(Complete(Load(f), id).tasks)
    ensures HasId(Load(f), id) ==> r.message == "Marked task " + IntToString(id) + " complete."
  {
    match Complete(Load(f), id)
    case Marked(tasks) => CompleteReport(Save(tasks), "Marked task " + IntToString(id) + " complete.")
    case NotFound => CompleteReport(f, "No task found with id " + IntToString(id) + ".")
  }

  /** Running the command twice leaves the file as running it once and
      prints the same line both times, whether the id was found or not. */
  lemma CompleteTaskIdempotent(f: TaskFile, id: int)
    ensures CompleteTask(CompleteTask(f, id).file, id) == CompleteTask(f, id)
  {
    if HasId(Load(f), id) {
      CompleteIdempotent(Load(f), id);
    }
  }

  /** The scan of `complete_task` as the loop it is in the source, shown to
      agree with the functional model above. */
  method CompleteTaskLoop(f: TaskFile, id: int) returns (file: TaskFile, message: string)
    ensures file == CompleteTask(f, id).file
    ensures message == CompleteTask(f, id).message
  {
    var tasks := Load(f);
    var i := 0;
    while i < |tasks|
      invariant i <= |tasks|
      invariant forall j :: 0 <= j < i ==> tasks[j].id != id
    {
      if tasks[i].id == id {
        assert IsFirstMatch(tasks, id, i);
        tasks := tasks[i := tasks[i].(done := true)];
        file := Save(tasks);
        message := "Marked task " + IntToString(id) + " complete.";
        return;
      }
      i := i + 1;
    }
    file := f;
    message := "No task found with id " + IntToString(id) + ".";
  }
}

=== FILE: tasks.dfy ===
/**
 The task record and the queries over an ordered task collection that the
 store's operations are built from: the id policy of `add_task` and the
 left-to-right id lookup of `complete_task` (src/todo.py).
 */
module Tasks {
  import opened Wrappers

  /** One stored task. Ids come from the store's file, so any integer may
      appear there; the store itself only ever assigns positive ones. */
  datatype Task = Task(id: int, title: string, description: string, createdAt: string, done: bool)

  predicate HasId(tasks: seq<Task>, id: int) {
    exists i :: 0 <= i < |tasks| && tasks[i].id == id
  }

  predicate UniqueIds(tasks: seq<Task>) {
    forall i, j :: 0 <= i < j < |tasks| ==> tasks[i].id != tasks[j].id
  }

  /** `k` is the position a left-to-right scan for `id` stops at. */
  predicate IsFirstMatch(tasks: seq<Task>, id: int, k: int) {
    && 0 <= k < |tasks|
    && tasks[k].id == id
    && forall j :: 0 <= j < k ==> tasks[j].id != id
  }

  /** Largest id of a non-empty collection. */
  function MaxId(tasks: seq<Task>): (m: int)
    requires |tasks| > 0
    ensures forall i :: 0 <= i < |tasks| ==> tasks[i].id <= m
    ensures exists i :: 0 <= i < |tasks| && tasks[i].id == m
    decreases |tasks|
  {
    var last := tasks[|tasks| - 1].id;
    if |tasks| == 1 then last
    else
      var rest := MaxId(tasks[..|tasks| - 1]);
      if last > rest then last else rest
  }

  /** The id `add_task` assigns: one more than the largest id, where the
      largest id of an empty collection is taken to be 0. */
  function NextId(tasks: seq<Task>): (n: int)
    ensures forall i :: 0 <= i < |tasks| ==> tasks[i].id < n
    ensures |tasks| == 0 ==> n == 1
    ensures |tasks| > 0 ==> HasId(tasks, n - 1)
  {
    if |tasks| == 0 then 1 else MaxId(tasks) + 1
  }

  /** Position of the first task carrying `id`, scanning from the front. */
  function FirstIndexOf(tasks: seq<Task>, id: int): (r: Option<nat>)
    ensures r.None? <==> !HasId(tasks, id)
    ensures r.Some? ==> IsFirstMatch(tasks, id, r.value)
    decreases |tasks|
  {
    if |tasks| == 0 then None
    else if tasks[0].id == id then Some(0)
    else
      match FirstIndexOf(tasks[1..], id)
      case None => None
      case Some(k) => Some(k + 1)
  }

  /** The first match is unique, so the lookup is determined by it. */
  lemma FirstMatchUnique(tasks: seq<Task>, id: int, k: int, k': int)
    requires IsFirstMatch(tasks, id, k) && IsFirstMatch(tasks, id, k')
    ensures k == k'
  {
  }

  /** Collections with the same ids in the same positions answer every
      lookup alike. */
  lemma {:induction false} FirstIndexOfSameIds(a: seq<Task>, b: seq<Task>, id: int)
    requires |a| == |b|
    requires forall i :: 0 <= i < |a| ==> a[i].id == b[i].id
    ensures FirstIndexOf(a, id) == FirstIndexOf(b, id)
  {
    var ra, rb := FirstIndexOf(a, id), FirstIndexOf(b, id);
    if ra.Some? {
      assert b[ra.value].id == id;
      assert rb.Some?;
      FirstMatchUnique(a, id, ra.value, rb.value);
    }
  }
}

=== FILE: wrappers.dfy ===
/** The optional-value datatype used by the model's lookups and parsers. */
module Wrappers {

  datatype Option<+T> = None | Some(value: T)

}
